=== FILE: README.md ===
# PokéPWA offline gateway and pagination, modelled in Dafny

PokéPWA is a React Pokédex that lists Pokémon from PokeAPI. A service worker
(`public/custom-sw.js`) sits between the page and the network:

- it ignores non-GET requests;
- it answers PokeAPI reads network-first, storing every 200 response in the
  `pokeapi-cache-v3` bucket and falling back to that bucket, or to a synthetic
  `{"error":"offline",…}` JSON answer, when the network is down;
- it answers every other GET cache-first across all buckets;
- on install it warms the `pokepwa-cache-v3` bucket with `/`;
- on activation it deletes every bucket that is not one of those two.

The page (`src/App.js`) pages the list 20 at a time, guards page changes,
shows a window of at most five page-number buttons, filters cards by name and
formats each card's `#001` id label and capitalised name.

This project models both parts as pure Dafny functions:

- The Cache Storage is an immutable `Store`: bucket names in creation order,
  plus a map from each name to a `map<Request, Response>`.
- The network is an oracle `Request -> Option<Response>`, where `None` means
  the fetch rejected.
- The fetch handler returns what the page receives together with the store it
  leaves behind. The install and activate handlers return the store they leave
  behind.

Files:

- `wrappers.dfy`: the `Option` type.
- `text.dfy`: `String.prototype.includes` and ASCII case mapping.
- `json.dfy`: the flat-object case of `JSON.stringify`, with a parser as its
  inverse.
- `cache_storage.dfy`: the Cache Storage operations the worker calls.
- `service_worker.dfy`: module `ServiceWorker` holds the three event handlers.
  Module `WorkerProperties` holds event sequences and the properties of the
  handlers.
- `pagination.dfy`: slicing, the page count, the page-change guard, the
  page-number window and the navigation buttons.
- `display.dfy`: the name filter, the id label and the capitalised name.

The worker is simpler than a general offline gateway, and the model follows
the code as written:

- the code has no per-role strategy configuration: network-first for PokeAPI
  reads and cache-first for everything else are fixed;
- the code has no message handlers (no pre-cache or notification messages);
- install warms only `/`, although `/manifest.json` is in the static file list;
- the offline answer has the default status 200;
- activation deletes every bucket that is not one of the two current names,
  whatever its name, not only buckets with the app's own prefix.

The page keeps one page count for two lists. After the offline fallback of a
search (`src/App.js:108-112`) the page count comes from the filtered list,
and after a successful remote search it is 1 (`src/App.js:98`). But
`handlePageChange` always loads pages of the full, unfiltered list
(`src/App.js:73`). The search term stays set, so the grid shows that page
filtered again by the term (`src/App.js:78-80`). So after an offline search,
page p loads the unfiltered list's page p, and only its cards that match the
term are shown. When none match, the "no results" box replaces the grid
(`src/App.js:196-203`) and the pagination bar disappears (`src/App.js:207`).
`Pagination.AcceptedPageIsNonEmpty` therefore takes the
guard's page count as a separate input that may be smaller than the paged
list's own.

The API branch runs `caches.open(API_CACHE_NAME)` before it tries the network.
So even when nothing is written, the API bucket exists afterwards (it is empty
if it was absent before). The contracts therefore say the store becomes
`Open(s, API_CACHE_NAME)`, not that it is unchanged.

## Model

| member | source | states |
|---|---|---|
| Text.Contains | public/custom-sw.js:57 | `url.includes(p)` is true exactly when `p` occurs at some index of `url` |
| ServiceWorker.Classify | public/custom-sw.js:57 | a URL is routed to the API branch exactly when the API pattern occurs in it |
| ServiceWorker.OnFetch | public/custom-sw.js:51-108 | a non-GET gets no worker response and an unchanged store; a GET goes to the network-first or the cache-first branch according to its classification; the store stays well-formed |
| ServiceWorker.NetworkFirst | public/custom-sw.js:58-96 | always responds. A 200 from the network is returned and put into the API bucket. Any other network status is returned and nothing is written. With the network down, a stored entry is returned as is and the store is unchanged; on a miss the synthetic offline response is returned |
| ServiceWorker.CacheFirstFetch | public/custom-sw.js:99-107 | never writes. A hit from `caches.match` is returned. On a miss the network's response is returned, or the event is rejected when the fetch fails |
| ServiceWorker.OfflineResponse | public/custom-sw.js:86-92 | the synthetic response has the default status 200 and the header `Content-Type: application/json` |
| ServiceWorker.OfflineBodyReadsBack | public/custom-sw.js:84-92 | the offline body parses as a JSON object whose `error` is `offline` and whose `message` is non-empty |
| ServiceWorker.OnInstall | public/custom-sw.js:12-30 | install always yields a store. The static bucket exists afterwards. Other buckets are untouched. `/` is stored exactly when its fetch gives an ok, non-206 response; otherwise the only effect is opening the bucket |
| ServiceWorker.PurgeStale | public/custom-sw.js:36-45 | a bucket survives exactly when it is current or not among the names being purged; survivors keep their contents |
| ServiceWorker.OnActivate | public/custom-sw.js:32-48 | after activation a bucket exists exactly when it existed before and is `pokepwa-cache-v3` or `pokeapi-cache-v3`; activation creates nothing, and those two keep their contents |
| WorkerProperties.ActivateIdempotent | public/custom-sw.js:36-45 | activating a second time removes nothing more |
| WorkerProperties.NonGetBypasses | public/custom-sw.js:54 | a non-GET request is not intercepted and no bucket changes |
| WorkerProperties.RunKeepsOnlyGetKeys | public/custom-sw.js:54-73 | after any sequence of install, activate and fetch events, no bucket holds a non-GET request |
| WorkerProperties.FreshOriginStoresOnlyGets | public/custom-sw.js:54-73 | starting from an origin with no buckets, no sequence of events ever stores a non-GET request |
| WorkerProperties.RoutingByUrl | public/custom-sw.js:57-107 | a GET whose URL contains `pokeapi.co/api/v2/pokemon` is handled network-first and every other GET cache-first |
| WorkerProperties.FreshApiResponseReplacesStale | public/custom-sw.js:65-73 | a live 200 answer W is returned and the API bucket then maps the request to W, replacing any older entry; other buckets are untouched |
| WorkerProperties.OfflineApiServesStoredEntry | public/custom-sw.js:74-82 | with the network down, a stored API entry is returned unchanged, whatever its status, and nothing is written |
| WorkerProperties.OfflineApiMiss | public/custom-sw.js:84-92 | with the network down and no stored entry, the synthetic response with status 200 is returned; existing buckets are unchanged and a newly opened one is empty |
| WorkerProperties.CacheHitIgnoresNetwork | public/custom-sw.js:101-104 | a cache-first request held by any bucket gets the same answer whatever the network does, and nothing is written |
| WorkerProperties.CacheMissUsesNetwork | public/custom-sw.js:105 | a cache-first miss passes the network's response through, or rejects when the fetch fails, and writes nothing |
| WorkerProperties.InstalledRootServedOffline | public/custom-sw.js:17-22 | after a successful warm-up, `/` is served from the static bucket with the network down, unless another bucket shadows it |
| WorkerProperties.InstallActivateServesRoot | public/custom-sw.js:13-48 | in the upgrade order install, then activate, then fetch, a `/` warmed at install is served with the network down, whatever older buckets held. It holds unless the current API bucket itself holds `/` |
| WorkerProperties.OldShellShadowsBeforeActivate | public/custom-sw.js:99-104 | before activation, a previous version's bucket that holds `/` still answers it, even after install has warmed a fresh copy |
| WorkerProperties.InstallSkipsManifest | public/custom-sw.js:7-21 | install never adds `/manifest.json`, although it is in the static file list |
| WorkerProperties.FailedInstallAddsNothing | public/custom-sw.js:26-28 | a failed warm-up adds no entry to any bucket |
| CacheStorage.Open | public/custom-sw.js:60 | `caches.open` creates the bucket, empty and last in order, only when it is absent |
| CacheStorage.Put | public/custom-sw.js:70 | `cache.put` maps the request to the response in the named bucket and leaves the other buckets unchanged |
| CacheStorage.MatchIn | public/custom-sw.js:77 | `cache.match` finds exactly the entry the bucket holds for the request |
| CacheStorage.MatchInAfterPut | public/custom-sw.js:70-77 | after `cache.put`, looking up the put request in that bucket gives the put response. Every other lookup, in any bucket, gives what it gave before |
| CacheStorage.Delete | public/custom-sw.js:41 | `caches.delete` removes exactly the named bucket |
| CacheStorage.MatchAll | public/custom-sw.js:101 | `caches.match` finds nothing exactly when no bucket holds the request. Any entry it returns is one some bucket holds for the request. The buckets are searched in creation order |
| CacheStorage.MatchAllSpec | public/custom-sw.js:101 | `caches.match` finds an entry exactly when some bucket holds the request, and then returns the entry of the earliest such bucket in creation order |
| Json.StringifyRoundTrip | public/custom-sw.js:86-90 | the serialized object parses back to the same fields in the same order |
| Pagination.Slice | src/App.js:20 | `slice(start, end)` with `0 <= start <= end` is the items from `start` to `end`, each clamped to the list's length; with `end <= start` it is empty; it is never longer than the list |
| Pagination.PageOf | src/App.js:18-20 | page `p >= 1` is the items from `(p-1)*20` up to `min(p*20, n)`; a page never has more than 20 items |
| Pagination.PagesCoverList | src/App.js:12-20 | pages 1 to `totalPages`, concatenated in order, are exactly the list |
| Pagination.TotalPages | src/App.js:59 | the page count is 0 exactly when there are no items, and otherwise `(t-1)*20 < n <= t*20` |
| Pagination.PageChange | src/App.js:71-75 | a page change loads page `p` exactly when `1 <= p <= totalPages`, and loads nothing otherwise |
| Pagination.AcceptedPageIsNonEmpty | src/App.js:71-75 | when the guard's page count is at most the paged list's own (the full list's count, a filtered list's, or 1 after a remote search), a page the guard accepts holds 1 to 20 items and starts at item `(p-1)*20` |
| Pagination.TotalPagesMonotone | src/App.js:108-111 | a shorter list, such as a filtered one, never has more pages |
| Pagination.PagePastEndIsEmpty | src/App.js:72 | a page past the last one would be empty |
| Pagination.PageWindow | src/App.js:226-240 | the page numbers are consecutive from `max(1, currentPage-2)` and each lies in `[1, totalPages]`. There are at most `min(5, totalPages)` of them, and they are every number from the start up to the smaller of `start + min(5, totalPages) - 1` and `totalPages`. The window contains the current page whenever it is in range |
| Pagination.NavigationButtonsMatchGuard | src/App.js:207-256 | while the pagination bar is shown (more than one page, at least one card) and the page is in range, "Previous"/"Next" are enabled exactly when their click passes the guard, and "First"/"Last" are enabled exactly when they lead to another page |
| Display.FilterByName | src/App.js:78-80 | every kept item's lower-cased name contains the lower-cased term, every matching item is kept, and the result is no longer than the input |
| Display.FilterAppend | src/App.js:78-80 | filtering a concatenation is the concatenation of the filtered parts, so the order is kept |
| Display.FilterCounts | src/App.js:78-80 | a matching item is kept as often as it occurs and a non-matching one never |
| Display.EmptyTermKeepsAll | src/App.js:78-80 | an empty search term keeps the whole list |
| Display.FilterIgnoresTermCase | src/App.js:108-110 | search terms that differ only in letter case select the same items |
| Display.IdLabel | src/App.js:186 | the label has length `max(3, number of characters in the id)`, ends with the id's decimal text, and everything before that is `0` |
| Display.IdLabelRoundTrip | src/App.js:186 | for a non-negative id the label is all digits and reads back as the id |
| Display.Capitalize | src/App.js:184 | the result has the name's length, its first character upper-cased and the rest unchanged |
| Display.CapitalizeKeepsMatches | src/App.js:184 | a capitalised name lower-cases to the same text, so the search matches it exactly when it matches the name |

## Left out

- The real `fetch`, `caches` and `Response` APIs. The network is an oracle and
  buckets are maps. `response.clone()` is the identity on immutable values.
- Request matching in the Cache API. It ignores URL fragments and honours
  `Vary`; here a request matches by exact method and URL.
- The `Vary: *` rejection. `cache.add` rejects a response with that header,
  and `cache.put` (line 70) does too. Because that put is not awaited, the
  response is then silently not stored. CacheStorage.Put always stores.
- Resolving `/` against the worker's origin. The root request's URL is the
  path as written.
- Storage failures such as an exceeded quota or `caches.open` rejecting.
  `cache.put` is not awaited in the source; the model applies it at once.
- `self.skipWaiting()` and `self.clients.claim()`. They are lifecycle signals
  to the browser and change no data.
- Concurrency between events and the race of the un-awaited `cache.put`. The
  model is sequential: one event at a time, each with its own network oracle.
- `console.log` output.
- React rendering, hooks, state setters and JSX.
- In `src/App.js`: the remote search, the asynchronous detail loading with
  `Promise.all`, JSON parsing, and the placeholder record for a failed
  detail fetch (lines 23-40, 54-67 and 93-103).
- Unicode `toLowerCase`/`toUpperCase`. Case mapping covers the ASCII letters
  only; the Unicode mappings that change a string's length are not modelled.
- `Math.ceil` over floating point. It is integer ceiling division, which
  agrees for every list length.
- Json.Stringify: control characters are not escaped as `JSON.stringify` would
  escape them. The only strings serialized are constants without such
  characters.
- Display.DecimalString: the exponent notation `Number.prototype.toString`
  uses from 1e21 up, and non-integer ids, are not modelled.
- ServiceWorker.OnActivate: does not state that the surviving bucket names
  keep their relative order, only which buckets survive and their contents.
- Pagination.PageChange: the page load it triggers is modelled only through
  `PageOf`; the state updates of `loadPagePokemon` are out of scope.

=== FILE: cache_storage.dfy ===
/** The browser's Cache Storage as the service worker sees it: named buckets,
    kept in creation order, each mapping a request to the response stored for
    it. Only the operations the worker calls are modelled: `caches.open`,
    `caches.keys`, `caches.delete`, `caches.match`, `cache.match`,
    `cache.put`. */
module CacheStorage {
  import opened Wrappers

  /** A request key: HTTP method (`verb`) and URL. */
  datatype Request = Request(verb: string, url: string)

  /** An immutable response; cloning it is the identity. */
  datatype Response = Response(status: int, headers: map<string, string>, body: string)

  /** One named cache: request to stored response. */
  type Bucket = map<Request, Response>

  /** All buckets of the origin. `names` lists them in creation order, which
      is the order `caches.keys()` reports and `caches.match` searches. */
  datatype Store = Store(names: seq<string>, buckets: map<string, Bucket>)

  /** `names` lists each bucket exactly once. */
  ghost predicate Valid(s: Store)
  {
    && (forall i, j :: 0 <= i < j < |s.names| ==> s.names[i] != s.names[j])
    && (forall n :: n in s.buckets <==> n in s.names)
  }

  /** The store of a fresh origin: no buckets. */
  function Empty(): (s: Store)
    ensures Valid(s) && s.buckets == map[]
  {
    Store([], map[])
  }

  /** `caches.open(name)`: creates the bucket, last in order, if it is absent. */
  function Open(s: Store, name: string): (r: Store)
    requires Valid(s)
    ensures Valid(r)
    ensures name in r.buckets
    ensures name in s.buckets ==> r == s
    ensures name !in s.buckets ==> r.names == s.names + [name] && r.buckets == s.buckets[name := map[]]
  {
    if name in s.buckets then s else Store(s.names + [name], s.buckets[name := map[]])
  }

  /** `cache.match(req)` on one bucket (a missing bucket holds nothing). */
  function MatchIn(s: Store, name: string, req: Request): (r: Option<Response>)
    ensures r.Some? <==> name in s.buckets && req in s.buckets[name]
    ensures r.Some? ==> r.value == s.buckets[name][req]
  {
    if name in s.buckets && req in s.buckets[name] then Some(s.buckets[name][req]) else None
  }

  /** `cache.put(req, resp)` on a bucket after `caches.open`: replaces any
      earlier entry for the same request. */
  function Put(s: Store, name: string, req: Request, resp: Response): (r: Store)
    requires Valid(s)
    ensures Valid(r)
    ensures r.names == Open(s, name).names
    ensures r.buckets.Keys == s.buckets.Keys + {name}
    ensures r.buckets[name] == Open(s, name).buckets[name][req := resp]
    ensures forall n :: n in s.buckets && n != name ==> r.buckets[n] == s.buckets[n]
  {
    var o := Open(s, name);
    Store(o.names, o.buckets[name := o.buckets[name][req := resp]])
  }

  /** Reading after a put: the put entry comes back, and every other lookup
      gives what it gave before. */
  lemma MatchInAfterPut(s: Store, name: string, req: Request, resp: Response, m: string, q: Request)
    requires Valid(s)
    ensures MatchIn(Put(s, name, req, resp), m, q) ==
      if m == name && q == req then Some(resp)
      else if m == name then MatchIn(s, name, q)
      else MatchIn(s, m, q)
  {
  }

  /** `caches.delete(name)`. */
  function Delete(s: Store, name: string): (r: Store)
    requires Valid(s)
    ensures Valid(r)
    ensures r.buckets == s.buckets - {name}
    ensures forall n :: n in r.names <==> n in s.names && n != name
  {
    var names := RemoveName(s.names, name);
    Store(names, s.buckets - {name})
  }

  /** `names` without `name`, order kept. */
  function RemoveName(names: seq<string>, name: string): (r: seq<string>)
    ensures forall n :: n in r <==> n in names && n != name
    ensures (forall i, j :: 0 <= i < j < |names| ==> names[i] != names[j]) ==>
            (forall i, j :: 0 <= i < j < |r| ==> r[i] != r[j])
  {
    if |names| == 0 then []
    else
      var rest := RemoveName(names[1..], name);
      assert forall n :: n in names <==> n == names[0] || n in names[1..];
      if names[0] == name then rest
      else
        var r := [names[0]] + rest;
        assert (forall i, j :: 0 <= i < j < |names| ==> names[i] != names[j]) ==>
               (forall i, j :: 0 <= i < j < |r| ==> r[i] != r[j]) by {
          if forall i, j :: 0 <= i < j < |names| ==> names[i] != names[j] {
            assert names[0] !in names[1..];
            assert forall j :: 0 < j < |r| ==> r[j] == rest[j - 1];
          }
        }
        r
  }

  /** `caches.match(req)`: the entry of the first bucket, in creation order,
      that holds the request. */
  function MatchAll(s: Store, req: Request): (r: Option<Response>)
    requires Valid(s)
    ensures r.None? <==> forall n :: n in s.buckets ==> req !in s.buckets[n]
    ensures r.Some? ==> exists n :: n in s.buckets && req in s.buckets[n] && r.value == s.buckets[n][req]
  {
    FirstMatchSpec(s.names, s.buckets, req);
    FirstMatch(s.names, s.buckets, req)
  }

  /** Searches the buckets named by `names`, in that order. */
  function FirstMatch(names: seq<string>, buckets: map<string, Bucket>, req: Request): (r: Option<Response>)
  {
    if |names| == 0 then None
    else if names[0] in buckets && req in buckets[names[0]] then Some(buckets[names[0]][req])
    else FirstMatch(names[1..], buckets, req)
  }

  /** The bucket at index `k` holds the request and no earlier bucket does. */
  ghost predicate FirstHolder(s: Store, req: Request, k: int)
  {
    && 0 <= k < |s.names|
    && s.names[k] in s.buckets && req in s.buckets[s.names[k]]
    && forall i :: 0 <= i < k ==> !(s.names[i] in s.buckets && req in s.buckets[s.names[i]])
  }

  /** `caches.match` finds an entry exactly when some bucket holds the
      request, and then it is the entry of the earliest such bucket. */
  lemma {:induction false} MatchAllSpec(s: Store, req: Request)
    requires Valid(s)
    ensures MatchAll(s, req).None? <==> forall n :: n in s.buckets ==> req !in s.buckets[n]
    ensures MatchAll(s, req).Some? ==>
            exists k :: FirstHolder(s, req, k) && MatchAll(s, req).value == s.buckets[s.names[k]][req]
  {
    FirstMatchSpec(s.names, s.buckets, req);
    var r := MatchAll(s, req);
    if r.Some? {
      var k :| 0 <= k < |s.names| && s.names[k] in s.buckets && req in s.buckets[s.names[k]]
        && (forall i :: 0 <= i < k ==> !(s.names[i] in s.buckets && req in s.buckets[s.names[i]]))
        && r.value == s.buckets[s.names[k]][req];
      assert FirstHolder(s, req, k);
    }
  }

  lemma {:induction false} FirstMatchSpec(names: seq<string>, buckets: map<string, Bucket>, req: Request)
    ensures FirstMatch(names, buckets, req).None? <==>
            forall i :: 0 <= i < |names| ==> !(names[i] in buckets && req in buckets[names[i]])
    ensures FirstMatch(names, buckets, req).Some? ==>
            exists k :: 0 <= k < |names| && names[k] in buckets && req in buckets[names[k]]
              && (forall i :: 0 <= i < k ==> !(names[i] in buckets && req in buckets[names[i]]))
              && FirstMatch(names, buckets, req).value == buckets[names[k]][req]
    decreases |names|
  {
    if |names| > 0 && !(names[0] in buckets && req in buckets[names[0]]) {
      FirstMatchSpec(names[1..], buckets, req);
      var r := FirstMatch(names, buckets, req);
      if r.Some? {
        var k :| 0 <= k < |names[1..]| && names[1..][k] in buckets && req in buckets[names[1..][k]]
          && (forall i :: 0 <= i < k ==> !(names[1..][i] in buckets && req in buckets[names[1..][i]]))
          && r.value == buckets[names[1..][k]][req];
        assert forall i :: 0 < i < k + 1 ==> names[i] == names[1..][i - 1];
      } else {
        assert forall i :: 0 < i < |names| ==> names[i] == names[1..][i - 1];
      }
    } else if |names| > 0 {
      assert FirstMatch(names, buckets, req).Some?;
    }
  }
}

=== FILE: display.dfy ===
/** The per-card text of the Pokédex page and the search-box filter: the
    case-insensitive name filter, the zero-padded `#001` id label and the
    capitalised name. */
module Display {
  import opened Text

  /** A name matches a search term when its lower-cased form contains the
      lower-cased term. */
  predicate NameMatches(name: string, term: string)
  {
    Contains(Lower(name), Lower(term))
  }

  /** `items.filter(p => p.name.toLowerCase().includes(term.toLowerCase()))`. */
  function FilterByName<T>(items: seq<T>, nameOf: T -> string, term: string): (r: seq<T>)
    ensures |r| <= |items|
    ensures forall i :: 0 <= i < |r| ==> NameMatches(nameOf(r[i]), term)
    ensures forall i :: 0 <= i < |items| && NameMatches(nameOf(items[i]), term) ==> items[i] in r
  {
    if |items| == 0 then []
    else
      var rest := FilterByName(items[1..], nameOf, term);
      assert forall i :: 1 <= i < |items| ==> items[i] == items[1..][i - 1];
      if NameMatches(nameOf(items[0]), term) then [items[0]] + rest else rest
  }

  /** Filtering a concatenation filters each part in place: order is kept. */
  lemma {:induction false} FilterAppend<T>(a: seq<T>, b: seq<T>, nameOf: T -> string, term: string)
    ensures FilterByName(a + b, nameOf, term) == FilterByName(a, nameOf, term) + FilterByName(b, nameOf, term)
    decreases |a|
  {
    if |a| > 0 {
      FilterAppend(a[1..], b, nameOf, term);
      assert (a + b)[1..] == a[1..] + b;
    } else {
      assert a + b == b;
    }
  }

  /** Each item is kept exactly as many times as it occurs when its name
      matches, and dropped otherwise. */
  lemma {:induction false} FilterCounts<T>(items: seq<T>, nameOf: T -> string, term: string, x: T)
    ensures multiset(FilterByName(items, nameOf, term))[x] ==
            if NameMatches(nameOf(x), term) then multiset(items)[x] else 0
    decreases |items|
  {
    if |items| > 0 {
      FilterCounts(items[1..], nameOf, term, x);
      assert items == [items[0]] + items[1..];
      assert multiset(items) == multiset([items[0]]) + multiset(items[1..]);
    }
  }

  /** The empty search term keeps every item, in order. */
  lemma {:induction false} EmptyTermKeepsAll<T>(items: seq<T>, nameOf: T -> string)
    ensures FilterByName(items, nameOf, "") == items
    decreases |items|
  {
    if |items| > 0 {
      ContainsEmpty(Lower(nameOf(items[0])));
      assert Lower("") == "";
      EmptyTermKeepsAll(items[1..], nameOf);
    }
  }

  /** Search terms that differ only in ASCII case select the same items. */
  lemma {:induction false} FilterIgnoresTermCase<T>(items: seq<T>, nameOf: T -> string, t1: string, t2: string)
    requires Lower(t1) == Lower(t2)
    ensures FilterByName(items, nameOf, t1) == FilterByName(items, nameOf, t2)
    decreases |items|
  {
    if |items| > 0 {
      FilterIgnoresTermCase(items[1..], nameOf, t1, t2);
    }
  }

  /** The decimal digit for `d`. */
  function DigitChar(d: nat): (c: char)
    requires d < 10
    ensures '0' <= c <= '9' && c as int - '0' as int == d
  {
    (d + '0' as int) as char
  }

  /** Decimal digits of `n`, most significant first, without leading zeros. */
  function Digits(n: nat): (r: string)
    ensures |r| >= 1
    ensures forall i :: 0 <= i < |r| ==> '0' <= r[i] <= '9'
    ensures n > 0 ==> r[0] != '0'
  {
    if n < 10 then [DigitChar(n)] else Digits(n / 10) + [DigitChar(n % 10)]
  }

  /** `Number.prototype.toString()` for an integer id. */
  function DecimalString(id: int): (r: string)
    ensures |r| >= 1
    ensures id >= 0 ==> forall i :: 0 <= i < |r| ==> '0' <= r[i] <= '9'
    ensures id < 0 ==> r[0] == '-'
  {
    if id < 0 then "-" + Digits(-id) else Digits(id)
  }

  /** The number a string of decimal digits denotes. */
  function DigitsValue(s: string): nat
    requires forall i :: 0 <= i < |s| ==> '0' <= s[i] <= '9'
  {
    if |s| == 0 then 0
    else DigitsValue(s[..|s| - 1]) * 10 + (s[|s| - 1] as int - '0' as int)
  }

  /** Reading the digits of `n` back gives `n`. */
  lemma {:induction false} DigitsRoundTrip(n: nat)
    ensures DigitsValue(Digits(n)) == n
  {
    if n >= 10 {
      DigitsRoundTrip(n / 10);
      var d := Digits(n);
      assert d[..|d| - 1] == Digits(n / 10);
    }
  }

  /** Leading zeros do not change the value of a digit string. */
  lemma {:induction false} LeadingZerosValue(z: nat, s: string)
    requires forall i :: 0 <= i < |s| ==> '0' <= s[i] <= '9'
    ensures DigitsValue(Zeros(z) + s) == DigitsValue(s)
    decreases |s|
  {
    if |s| == 0 {
      ZerosValue(z);
      assert Zeros(z) + s == Zeros(z);
    } else {
      LeadingZerosValue(z, s[..|s| - 1]);
      assert (Zeros(z) + s)[..|Zeros(z) + s| - 1] == Zeros(z) + s[..|s| - 1];
    }
  }

  /** A run of zeros denotes zero. */
  lemma {:induction false} ZerosValue(z: nat)
    ensures DigitsValue(Zeros(z)) == 0
  {
    if z > 0 {
      ZerosValue(z - 1);
      assert Zeros(z)[..z - 1] == Zeros(z - 1);
    }
  }

  /** `z` copies of '0'. */
  function Zeros(z: nat): (r: string)
    ensures |r| == z
    ensures forall i :: 0 <= i < z ==> r[i] == '0'
  {
    if z == 0 then [] else Zeros(z - 1) + ['0']
  }

  /** `s.padStart(width, '0')`. */
  function PadStartZeros(s: string, width: nat): (r: string)
    ensures |r| == if |s| >= width then |s| else width
    ensures r[|r| - |s|..] == s
    ensures forall i :: 0 <= i < |r| - |s| ==> r[i] == '0'
  {
    if |s| >= width then s else Zeros(width - |s|) + s
  }

  /** The id label `id.toString().padStart(3, '0')`. */
  function IdLabel(id: int): (r: string)
    ensures |r| == if |DecimalString(id)| >= 3 then |DecimalString(id)| else 3
    ensures r[|r| - |DecimalString(id)|..] == DecimalString(id)
    ensures forall i :: 0 <= i < |r| - |DecimalString(id)| ==> r[i] == '0'
  {
    PadStartZeros(DecimalString(id), 3)
  }

  /** Zero-padding a digit string keeps it all digits and keeps its value. */
  lemma PadKeepsValue(d: string, width: nat)
    requires forall i :: 0 <= i < |d| ==> '0' <= d[i] <= '9'
    ensures forall i :: 0 <= i < |PadStartZeros(d, width)| ==> '0' <= PadStartZeros(d, width)[i] <= '9'
    ensures DigitsValue(PadStartZeros(d, width)) == DigitsValue(d)
  {
    if |d| < width {
      LeadingZerosValue(width - |d|, d);
    }
  }

  /** For a non-negative id the label is all digits and reads back as the id. */
  lemma IdLabelRoundTrip(id: nat)
    ensures forall i :: 0 <= i < |IdLabel(id)| ==> '0' <= IdLabel(id)[i] <= '9'
    ensures DigitsValue(IdLabel(id)) == id
  {
    var d := Digits(id);
    assert IdLabel(id) == PadStartZeros(d, 3);
    DigitsRoundTrip(id);
    PadKeepsValue(d, 3);
  }

  /** `name.charAt(0).toUpperCase() + name.slice(1)`. */
  function Capitalize(name: string): (r: string)
    ensures |r| == |name|
    ensures |name| > 0 ==> r[0] == UpperChar(name[0]) && r[1..] == name[1..]
  {
    if |name| == 0 then "" else [UpperChar(name[0])] + name[1..]
  }

  /** Capitalising a shown name does not change what the search matches. */
  lemma CapitalizeKeepsMatches(name: string, term: string)
    ensures Lower(Capitalize(name)) == Lower(name)
    ensures NameMatches(Capitalize(name), term) == NameMatches(name, term)
  {
  }
}

=== FILE: json.dfy ===
/** The part of `JSON.stringify` the service worker relies on: a flat object
    whose keys and values are all strings, written without whitespace and in
    insertion order. `Parse` reads that shape back and serves as the
    serializer's partner: every serialized object parses to its own fields. */
module Json {
  import opened Wrappers

  /** One `"key":"value"` member of a flat object. */
  type Field = (string, string)

  /** Escapes the two characters that would end or break a string literal. */
  function Escape(v: string): (r: string)
    ensures |r| >= |v|
  {
    if |v| == 0 then []
    else if v[0] == '"' || v[0] == '\\' then ['\\', v[0]] + Escape(v[1..])
    else [v[0]] + Escape(v[1..])
  }

  function Quote(v: string): string
  {
    "\"" + Escape(v) + "\""
  }

  function Member(f: Field): string
  {
    Quote(f.0) + ":" + Quote(f.1)
  }

  /** The members of an object separated by commas. */
  function Members(fs: seq<Field>): string
  {
    if |fs| == 0 then ""
    else if |fs| == 1 then Member(fs[0])
    else Member(fs[0]) + "," + Members(fs[1..])
  }

  /** `JSON.stringify` of an object whose properties are all strings. */
  function Stringify(fs: seq<Field>): (r: string)
    ensures |r| >= 2 && r[0] == '{' && r[|r| - 1] == '}'
  {
    "{" + Members(fs) + "}"
  }

  /** Reads the body of a string literal (the opening quote already consumed)
      and returns its value with the text after the closing quote. */
  function ParseString(t: string): (r: Option<(string, string)>)
    ensures r.Some? ==> |r.value.1| < |t|
    decreases |t|
  {
    if |t| == 0 then None
    else if t[0] == '"' then Some(([], t[1..]))
    else if t[0] == '\\' then
      if |t| < 2 || !(t[1] == '"' || t[1] == '\\') then None
      else match ParseString(t[2..])
        case None => None
        case Some(p) => Some(([t[1]] + p.0, p.1))
    else match ParseString(t[1..])
      case None => None
      case Some(p) => Some(([t[0]] + p.0, p.1))
  }

  /** Reads one or more members followed by the closing brace. */
  function ParseMembers(t: string): (r: Option<seq<Field>>)
    decreases |t|
  {
    if |t| == 0 || t[0] != '"' then None
    else match ParseString(t[1..])
      case None => None
      case Some(k) =>
        var t1 := k.1;
        if |t1| < 2 || t1[0] != ':' || t1[1] != '"' then None
        else match ParseString(t1[2..])
          case None => None
          case Some(v) =>
            var t2 := v.1;
            if t2 == "}" then Some([(k.0, v.0)])
            else if |t2| == 0 || t2[0] != ',' then None
            else match ParseMembers(t2[1..])
              case None => None
              case Some(rest) => Some([(k.0, v.0)] + rest)
  }

  /** Reads a flat object of string properties. */
  function Parse(t: string): Option<seq<Field>>
  {
    if |t| < 2 || t[0] != '{' then None
    else if t[1..] == "}" then Some([])
    else ParseMembers(t[1..])
  }

  /** The value of the first property named `key`. */
  function Lookup(fs: seq<Field>, key: string): (r: Option<string>)
    ensures r.Some? <==> exists i :: 0 <= i < |fs| && fs[i].0 == key
    ensures r.Some? ==> exists i :: 0 <= i < |fs| && fs[i] == (key, r.value)
  {
    if |fs| == 0 then None
    else if fs[0].0 == key then Some(fs[0].1)
    else
      var r := Lookup(fs[1..], key);
      assert forall i :: 1 <= i < |fs| ==> fs[i] == fs[1..][i - 1];
      r
  }

  /** An escaped string followed by its closing quote reads back as itself. */
  lemma {:induction false} ParseStringEscape(v: string, rest: string)
    ensures ParseString(Escape(v) + "\"" + rest) == Some((v, rest))
    decreases |v|
  {
    var t := Escape(v) + "\"" + rest;
    if |v| == 0 {
      assert t == "\"" + rest;
      assert t[1..] == rest;
    } else {
      ParseStringEscape(v[1..], rest);
      var tail := Escape(v[1..]) + "\"" + rest;
      if v[0] == '"' || v[0] == '\\' {
        assert t == ['\\', v[0]] + tail;
        assert t[2..] == tail;
        assert [v[0]] + v[1..] == v;
      } else {
        assert t == [v[0]] + tail;
        assert t[1..] == tail;
        assert [v[0]] + v[1..] == v;
      }
    }
  }

  /** A serialized member reads back as its key and value. */
  lemma MemberParts(f: Field, rest: string)
    ensures (Member(f) + rest)[0] == '"'
    ensures ParseString((Member(f) + rest)[1..])
            == Some((f.0, ":" + Quote(f.1) + rest))
    ensures ParseString((":" + Quote(f.1) + rest)[2..]) == Some((f.1, rest))
  {
    var t := Member(f) + rest;
    assert t[1..] == Escape(f.0) + "\"" + (":" + Quote(f.1) + rest);
    ParseStringEscape(f.0, ":" + Quote(f.1) + rest);
    assert (":" + Quote(f.1) + rest)[2..] == Escape(f.1) + "\"" + rest;
    ParseStringEscape(f.1, rest);
  }

  /** Unfolds `ParseMembers` over one serialized member followed by `after`. */
  lemma ParseMembersHead(f: Field, after: string)
    ensures ParseMembers(Member(f) + after) ==
      if after == "}" then Some([f])
      else if |after| == 0 || after[0] != ',' then None
      else match ParseMembers(after[1..])
        case None => None
        case Some(rest) => Some([f] + rest)
  {
    var t := Member(f) + after;
    MemberParts(f, after);
    var t1 := ":" + Quote(f.1) + after;
    assert |t1| >= 2 && t1[0] == ':' && t1[1] == '"';
  }

  /** Serialized members followed by the closing brace read back as the members. */
  lemma {:induction false} ParseMembersRoundTrip(fs: seq<Field>)
    requires |fs| >= 1
    ensures ParseMembers(Members(fs) + "}") == Some(fs)
    decreases |fs|
  {
    if |fs| == 1 {
      ParseMembersHead(fs[0], "}");
      assert Members(fs) + "}" == Member(fs[0]) + "}";
      assert [fs[0]] == fs;
    } else {
      var tail := "," + Members(fs[1..]) + "}";
      assert Members(fs) + "}" == Member(fs[0]) + tail;
      ParseMembersHead(fs[0], tail);
      ParseMembersRoundTrip(fs[1..]);
      assert tail[1..] == Members(fs[1..]) + "}";
      assert tail != "}";
      assert [fs[0]] + fs[1..] == fs;
    }
  }

  /** `Parse` inverts `Stringify`: the object's fields come back in order. */
  lemma StringifyRoundTrip(fs: seq<Field>)
    ensures Parse(Stringify(fs)) == Some(fs)
  {
    var t := Stringify(fs);
    if |fs| == 0 {
      assert t == "{}";
    } else {
      ParseMembersRoundTrip(fs);
      assert t[1..] == Members(fs) + "}";
      assert Members(fs) != [] by {
        MemberParts(fs[0], if |fs| == 1 then "" else "," + Members(fs[1..]));
      }
      assert t[1..] != "}";
    }
  }
}

=== FILE: pagination.dfy ===
/** The pagination arithmetic of the Pokédex page: which slice of the list a
    page shows, how many pages there are, when a page change is honoured, the
    row of page-number buttons and the state of the navigation buttons. */
module Pagination {
  import opened Wrappers

  const ITEMS_PER_PAGE: nat := 20

  /** How `Array.prototype.slice` turns a relative index into a position:
      negative values count from the end, and the result is clamped to the list. */
  function SliceIndex(rel: int, len: nat): (r: nat)
    ensures r <= len
    ensures 0 <= rel <= len ==> r == rel
    ensures rel > len ==> r == len
    ensures rel < 0 ==> r == if len + rel < 0 then 0 else len + rel
  {
    if rel < 0 then (if len + rel < 0 then 0 else len + rel)
    else if rel > len then len
    else rel
  }

  /** `list.slice(start, end)`. */
  function Slice<T>(list: seq<T>, start: int, end: int): (r: seq<T>)
    ensures |r| <= |list|
    ensures 0 <= start <= end ==> r == list[Min(start, |list|)..Min(end, |list|)]
    ensures 0 <= end <= start ==> r == []
  {
    var from := SliceIndex(start, |list|);
    var to := SliceIndex(end, |list|);
    if from >= to then [] else list[from..to]
  }

  function Min(a: int, b: int): int
  {
    if a <= b then a else b
  }

  function Max(a: int, b: int): int
  {
    if a >= b then a else b
  }

  /** The items `loadPagePokemon(list, page)` fetches details for. For a page
      number of at least 1 this is the run of at most twenty items starting
      at `(page - 1) * 20`, cut off at the end of the list. */
  function PageOf<T>(list: seq<T>, page: int): (r: seq<T>)
    ensures |r| <= ITEMS_PER_PAGE
    ensures page >= 1 ==>
      r == list[Min((page - 1) * ITEMS_PER_PAGE, |list|)..Min(page * ITEMS_PER_PAGE, |list|)]
  {
    var start := (page - 1) * ITEMS_PER_PAGE;
    var end := start + ITEMS_PER_PAGE;
    Slice(list, start, end)
  }

  /** `Math.ceil(n / 20)`, the page count for `n` items. */
  function TotalPages(n: nat): (t: nat)
    ensures n == 0 <==> t == 0
    ensures t > 0 ==> (t - 1) * ITEMS_PER_PAGE < n <= t * ITEMS_PER_PAGE
  {
    (n + ITEMS_PER_PAGE - 1) / ITEMS_PER_PAGE
  }

  /** The page count is the least `t` whose pages hold all `n` items. */
  lemma TotalPagesIsLeast(n: nat, t: nat)
    requires n <= t * ITEMS_PER_PAGE
    ensures TotalPages(n) <= t
  {
  }

  /** `handlePageChange(newPage)`: the page to load, or nothing when the
      requested page is out of range. */
  function PageChange(newPage: int, totalPages: int): (r: Option<int>)
    ensures r.Some? <==> 1 <= newPage <= totalPages
    ensures r.Some? ==> r.value == newPage
  {
    if newPage >= 1 && newPage <= totalPages then Some(newPage) else None
  }

  /** Pages 1 to `k` laid end to end. */
  function Pages<T>(list: seq<T>, k: nat): seq<T>
  {
    if k == 0 then [] else Pages(list, k - 1) + PageOf(list, k)
  }

  /** The first `k` pages are the first `min(20k, n)` items. */
  lemma {:induction false} PagesArePrefix<T>(list: seq<T>, k: nat)
    ensures Pages(list, k) == list[..Min(k * ITEMS_PER_PAGE, |list|)]
  {
    if k > 0 {
      PagesArePrefix(list, k - 1);
      var a := Min((k - 1) * ITEMS_PER_PAGE, |list|);
      var b := Min(k * ITEMS_PER_PAGE, |list|);
      assert a <= b;
      assert list[..a] + list[a..b] == list[..b];
    }
  }

  /** Pages 1 to `totalPages`, in order, reproduce the list exactly. */
  lemma PagesCoverList<T>(list: seq<T>)
    ensures Pages(list, TotalPages(|list|)) == list
  {
    PagesArePrefix(list, TotalPages(|list|));
  }

  /** A shorter list never has more pages. */
  lemma TotalPagesMonotone(m: nat, n: nat)
    requires m <= n
    ensures TotalPages(m) <= TotalPages(n)
  {
  }

  /** Every page the guard accepts holds between one and twenty items of the
      list being paged, provided the guard's page count is not larger than
      that list's own. This covers the page count of the full list and also
      the count of a filtered or single-result list, which is never larger,
      while `handlePageChange` keeps paging the full list. */
  lemma AcceptedPageIsNonEmpty<T>(list: seq<T>, newPage: int, totalPages: int)
    requires PageChange(newPage, totalPages).Some? && totalPages <= TotalPages(|list|)
    ensures 1 <= |PageOf(list, newPage)| <= ITEMS_PER_PAGE
    ensures PageOf(list, newPage)[0] == list[(newPage - 1) * ITEMS_PER_PAGE]
  {
  }

  /** A page past the last one is empty, so refusing it loses nothing. */
  lemma PagePastEndIsEmpty<T>(list: seq<T>, page: int)
    requires page > TotalPages(|list|)
    ensures PageOf(list, page) == []
  {
  }

  /** The pagination bar is shown only with more than one page and at least
      one visible card. */
  predicate PaginationVisible(totalPages: int, shown: nat)
  {
    totalPages > 1 && shown > 0
  }

  /** "First" and "Previous" are disabled on the first page. */
  predicate BackDisabled(currentPage: int)
  {
    currentPage == 1
  }

  /** "Next" and "Last" are disabled on the last page. */
  predicate ForwardDisabled(currentPage: int, totalPages: int)
  {
    currentPage == totalPages
  }

  /** While the pagination bar is shown and the current page is in range,
      "Previous" and "Next" are enabled exactly when their click passes the
      page-change guard, and "First"/"Last" are enabled exactly when their
      target differs from the current page. */
  lemma NavigationButtonsMatchGuard(currentPage: int, totalPages: int, shown: nat)
    requires PaginationVisible(totalPages, shown)
    requires 1 <= currentPage <= totalPages
    ensures !BackDisabled(currentPage) <==> PageChange(currentPage - 1, totalPages).Some?
    ensures !ForwardDisabled(currentPage, totalPages) <==> PageChange(currentPage + 1, totalPages).Some?
    ensures !BackDisabled(currentPage) <==> PageChange(1, totalPages) != Some(currentPage)
    ensures !ForwardDisabled(currentPage, totalPages) <==> PageChange(totalPages, totalPages) != Some(currentPage)
  {
  }

  /** The page numbers shown: `min(5, totalPages)` candidates counting up from
      `max(1, currentPage - 2)`, keeping those not past the last page. */
  method PageWindow(currentPage: int, totalPages: nat) returns (nums: seq<int>)
    ensures forall j :: 0 <= j < |nums| ==> nums[j] == Max(1, currentPage - 2) + j
    ensures forall j :: 0 <= j < |nums| ==> 1 <= nums[j] <= totalPages
    ensures |nums| <= Min(5, totalPages)
    ensures forall p :: p in nums <==>
              Max(1, currentPage - 2) <= p <= Min(Max(1, currentPage - 2) + Min(5, totalPages) - 1, totalPages)
    ensures 1 <= currentPage <= totalPages ==> currentPage in nums
  {
    var start := Max(1, currentPage - 2);
    var count := Min(5, totalPages);
    nums := [];
    var index := 0;
    while index < count
      invariant 0 <= index <= count
      invariant |nums| <= index
      invariant forall j :: 0 <= j < |nums| ==> nums[j] == start + j
      invariant forall j :: 0 <= j < |nums| ==> nums[j] <= totalPages
      invariant |nums| == Min(index, Max(0, totalPages - start + 1))
    {
      var pageNum := start + index;
      if pageNum <= totalPages {
        nums := nums + [pageNum];
      }
      index := index + 1;
    }
    assert |nums| == Min(count, Max(0, totalPages - start + 1));
    forall p
      ensures p in nums <==> start <= p <= Min(start + count - 1, totalPages)
    {
      if start <= p <= Min(start + count - 1, totalPages) {
        assert nums[p - start] == p;
      }
    }
  }
}

=== FILE: service_worker.dfy ===
/** The PokéPWA service worker: the install warm-up, the activation purge and
    the fetch gateway. Each handler is a pure function from the cache store
    (and a network oracle) to what the page sees and the store afterwards. */
module ServiceWorker {
  import opened Wrappers
  import Text
  import Json
  import opened CacheStorage

  /** Bucket holding the application shell. */
  const CACHE_NAME: string := "pokepwa-cache-v3"
  /** Bucket holding PokeAPI responses. */
  const API_CACHE_NAME: string := "pokeapi-cache-v3"
  /** Any GET whose URL contains this text is a PokeAPI read. */
  const API_PATTERN: string := "pokeapi.co/api/v2/pokemon"
  /** The manifest the shell lists; install warms only its first entry. */
  const STATIC_FILES: seq<string> := ["/", "/manifest.json"]
  /** The human-readable part of the synthetic offline answer. */
  const OFFLINE_MESSAGE: string := "Conéctate a internet para cargar Pokémon"

  /** `fetch(req)`: a response (of any status), or `None` when the fetch rejects. */
  type Network = Request -> Option<Response>

  /** What the page receives for one fetch event. */
  datatype Outcome =
    | NotIntercepted          // no `respondWith`: the browser fetches on its own
    | Respond(resp: Response) // `respondWith` resolved with this response
    | Rejected                // `respondWith` rejected: a network error for the page

  /** A handler's answer together with the store it leaves behind. */
  datatype Handled = Handled(outcome: Outcome, store: Store)

  /** The two request classes the worker distinguishes among GETs. */
  datatype Route = NetworkFirstApi | CacheFirst

  /** A bucket name this version of the worker owns. */
  predicate IsCurrent(name: string)
  {
    name == CACHE_NAME || name == API_CACHE_NAME
  }

  /** The request `cache.add('/')` issues during install. */
  function RootRequest(): (r: Request)
    ensures r.verb == "GET" && r.url == STATIC_FILES[0]
  {
    Request("GET", "/")
  }

  /** The answer built when the network is down and the API bucket misses:
      `new Response(JSON.stringify({error, message}), {headers})`, whose
      status defaults to 200. */
  function OfflineResponse(): (r: Response)
    ensures r.status == 200
    ensures r.headers == map["Content-Type" := "application/json"]
  {
    Response(200, map["Content-Type" := "application/json"],
             Json.Stringify([("error", "offline"), ("message", OFFLINE_MESSAGE)]))
  }

  /** The offline body is a JSON object whose `error` is "offline" and whose
      `message` is non-empty. */
  lemma OfflineBodyReadsBack()
    ensures Json.Parse(OfflineResponse().body).Some?
    ensures Json.Lookup(Json.Parse(OfflineResponse().body).value, "error") == Some("offline")
    ensures Json.Lookup(Json.Parse(OfflineResponse().body).value, "message").Some?
    ensures Json.Lookup(Json.Parse(OfflineResponse().body).value, "message").value != ""
  {
    var fs := [("error", "offline"), ("message", OFFLINE_MESSAGE)];
    Json.StringifyRoundTrip(fs);
    assert fs[1].0 == "message";
  }

  /** Routing of a GET by URL inspection. */
  function Classify(url: string): (r: Route)
    ensures r == NetworkFirstApi <==> exists i :: Text.OccursAt(url, API_PATTERN, i)
  {
    if Text.Contains(url, API_PATTERN) then NetworkFirstApi else CacheFirst
  }

  /** The API branch: open the API bucket, try the network, store a 200, and
      on a network failure fall back to the stored entry or the offline JSON. */
  function NetworkFirst(s: Store, req: Request, net: Network): (h: Handled)
    requires Valid(s)
    ensures Valid(h.store)
    ensures h.outcome.Respond?
    ensures net(req).Some? && net(req).value.status == 200 ==>
              h == Handled(Respond(net(req).value), Put(s, API_CACHE_NAME, req, net(req).value))
    ensures net(req).Some? && net(req).value.status != 200 ==>
              h == Handled(Respond(net(req).value), Open(s, API_CACHE_NAME))
    ensures net(req).None? && MatchIn(s, API_CACHE_NAME, req).Some? ==>
              h == Handled(Respond(s.buckets[API_CACHE_NAME][req]), s)
    ensures net(req).None? && MatchIn(s, API_CACHE_NAME, req).None? ==>
              h == Handled(Respond(OfflineResponse()), Open(s, API_CACHE_NAME))
  {
    var s1 := Open(s, API_CACHE_NAME);
    match net(req)
    case Some(resp) =>
      if resp.status == 200 then Handled(Respond(resp), Put(s1, API_CACHE_NAME, req, resp))
      else Handled(Respond(resp), s1)
    case None =>
      match MatchIn(s1, API_CACHE_NAME, req)
      case Some(cached) => Handled(Respond(cached), s1)
      case None => Handled(Respond(OfflineResponse()), s1)
  }

  /** Every other GET: `caches.match` across all buckets, else the network;
      nothing is written and a network failure is not caught. */
  function CacheFirstFetch(s: Store, req: Request, net: Network): (h: Handled)
    requires Valid(s)
    ensures h.store == s
    ensures MatchAll(s, req).Some? ==> h.outcome == Respond(MatchAll(s, req).value)
    ensures MatchAll(s, req).None? && net(req).Some? ==> h.outcome == Respond(net(req).value)
    ensures MatchAll(s, req).None? && net(req).None? ==> h.outcome == Rejected
  {
    match MatchAll(s, req)
    case Some(cached) => Handled(Respond(cached), s)
    case None =>
      match net(req)
      case Some(resp) => Handled(Respond(resp), s)
      case None => Handled(Rejected, s)
  }

  /** The `fetch` event handler. */
  function OnFetch(s: Store, req: Request, net: Network): (h: Handled)
    requires Valid(s)
    ensures Valid(h.store)
    ensures req.verb != "GET" ==> h == Handled(NotIntercepted, s)
    ensures req.verb == "GET" && Classify(req.url) == NetworkFirstApi ==> h == NetworkFirst(s, req, net)
    ensures req.verb == "GET" && Classify(req.url) == CacheFirst ==> h == CacheFirstFetch(s, req, net)
  {
    if req.verb != "GET" then Handled(NotIntercepted, s)
    else match Classify(req.url)
      case NetworkFirstApi => NetworkFirst(s, req, net)
      case CacheFirst => CacheFirstFetch(s, req, net)
  }

  /** `cache.add` keeps a response only when its status is ok and not 206. */
  predicate AddAccepts(r: Response)
  {
    200 <= r.status <= 299 && r.status != 206
  }

  /** The `install` handler: open the static bucket and try to add `/`; any
      failure is swallowed, so install always completes. */
  function OnInstall(s: Store, net: Network): (r: Store)
    requires Valid(s)
    ensures Valid(r)
    ensures CACHE_NAME in r.buckets
    ensures forall n :: n in s.buckets && n != CACHE_NAME ==> n in r.buckets && r.buckets[n] == s.buckets[n]
    ensures net(RootRequest()).Some? && AddAccepts(net(RootRequest()).value) ==>
              r == Put(s, CACHE_NAME, RootRequest(), net(RootRequest()).value)
    ensures !(net(RootRequest()).Some? && AddAccepts(net(RootRequest()).value)) ==>
              r == Open(s, CACHE_NAME)
  {
    var s1 := Open(s, CACHE_NAME);
    match net(RootRequest())
    case Some(resp) =>
      if AddAccepts(resp) then Put(s1, CACHE_NAME, RootRequest(), resp) else s1
    case None => s1
  }

  /** Deletes, one after the other, every bucket among `names` that is not current. */
  function PurgeStale(s: Store, names: seq<string>): (r: Store)
    requires Valid(s)
    ensures Valid(r)
    ensures forall n :: n in r.buckets <==> n in s.buckets && !(n in names && !IsCurrent(n))
    ensures forall n :: n in r.buckets ==> r.buckets[n] == s.buckets[n]
    decreases |names|
  {
    if |names| == 0 then s
    else
      var s1 := if IsCurrent(names[0]) then s else Delete(s, names[0]);
      PurgeStale(s1, names[1..])
  }

  /** The `activate` handler: purge every bucket `caches.keys()` lists that is
      not one of the two current names. */
  function OnActivate(s: Store): (r: Store)
    requires Valid(s)
    ensures Valid(r)
    ensures forall n :: n in r.buckets <==> n in s.buckets && IsCurrent(n)
    ensures forall n :: n in s.buckets && IsCurrent(n) ==> n in r.buckets && r.buckets[n] == s.buckets[n]
  {
    PurgeStale(s, s.names)
  }
}

module WorkerProperties {
  import opened Wrappers
  import Text
  import opened CacheStorage
  import opened ServiceWorker

  /** One event the hosting browser delivers to the worker. */
  datatype Event =
    | Install(net: Network)
    | Activate
    | Fetch(req: Request, net: Network)

  /** The store after one event. */
  function Step(s: Store, e: Event): (r: Store)
    requires Valid(s)
    ensures Valid(r)
  {
    match e
    case Install(net) => OnInstall(s, net)
    case Activate => OnActivate(s)
    case Fetch(req, net) => OnFetch(s, req, net).store
  }

  /** The store after a sequence of events, delivered one at a time. */
  function Run(s: Store, es: seq<Event>): (r: Store)
    requires Valid(s)
    ensures Valid(r)
    decreases |es|
  {
    if |es| == 0 then s else Run(Step(s, es[0]), es[1..])
  }

  /** Every stored request is a GET. */
  ghost predicate OnlyGetKeys(s: Store)
  {
    forall n, q :: n in s.buckets && q in s.buckets[n] ==> q.verb == "GET"
  }

  /** A non-GET request is not answered by the worker and changes nothing. */
  lemma NonGetBypasses(s: Store, req: Request, net: Network)
    requires Valid(s) && req.verb != "GET"
    ensures OnFetch(s, req, net).outcome == NotIntercepted
    ensures OnFetch(s, req, net).store == s
  {
  }

  /** Opening a bucket adds no key. */
  lemma OpenKeepsOnlyGetKeys(s: Store, name: string)
    requires Valid(s) && OnlyGetKeys(s)
    ensures OnlyGetKeys(Open(s, name))
  {
  }

  /** Putting a GET request adds only that key. */
  lemma PutKeepsOnlyGetKeys(s: Store, name: string, req: Request, resp: Response)
    requires Valid(s) && OnlyGetKeys(s) && req.verb == "GET"
    ensures OnlyGetKeys(Put(s, name, req, resp))
  {
    OpenKeepsOnlyGetKeys(s, name);
  }

  /** Purging only removes buckets. */
  lemma ActivateKeepsOnlyGetKeys(s: Store)
    requires Valid(s) && OnlyGetKeys(s)
    ensures OnlyGetKeys(OnActivate(s))
  {
  }

  /** Install adds only the GET request for `/`. */
  lemma InstallKeepsOnlyGetKeys(s: Store, net: Network)
    requires Valid(s) && OnlyGetKeys(s)
    ensures OnlyGetKeys(OnInstall(s, net))
  {
    OpenKeepsOnlyGetKeys(s, CACHE_NAME);
    var root := RootRequest();
    if net(root).Some? && AddAccepts(net(root).value) {
      PutKeepsOnlyGetKeys(s, CACHE_NAME, root, net(root).value);
    }
  }

  /** A fetch stores at most the GET request it answers. */
  lemma FetchKeepsOnlyGetKeys(s: Store, req: Request, net: Network)
    requires Valid(s) && OnlyGetKeys(s)
    ensures OnlyGetKeys(OnFetch(s, req, net).store)
  {
    if req.verb == "GET" && Classify(req.url) == NetworkFirstApi {
      OpenKeepsOnlyGetKeys(s, API_CACHE_NAME);
      if net(req).Some? && net(req).value.status == 200 {
        PutKeepsOnlyGetKeys(s, API_CACHE_NAME, req, net(req).value);
      }
    }
  }

  /** No single event stores a non-GET request. */
  lemma StepKeepsOnlyGetKeys(s: Store, e: Event)
    requires Valid(s) && OnlyGetKeys(s)
    ensures OnlyGetKeys(Step(s, e))
  {
    match e
    case Install(net) => InstallKeepsOnlyGetKeys(s, net);
    case Activate => ActivateKeepsOnlyGetKeys(s);
    case Fetch(req, net) => FetchKeepsOnlyGetKeys(s, req, net);
  }

  /** After any sequence of events starting from a store of GET keys only,
      no bucket holds a non-GET request. */
  lemma {:induction false} RunKeepsOnlyGetKeys(s: Store, es: seq<Event>)
    requires Valid(s) && OnlyGetKeys(s)
    ensures OnlyGetKeys(Run(s, es))
    decreases |es|
  {
    if |es| > 0 {
      StepKeepsOnlyGetKeys(s, es[0]);
      RunKeepsOnlyGetKeys(Step(s, es[0]), es[1..]);
    }
  }

  /** From a fresh origin, no sequence of events ever stores a non-GET request. */
  lemma FreshOriginStoresOnlyGets(es: seq<Event>)
    ensures OnlyGetKeys(Run(Empty(), es))
  {
    RunKeepsOnlyGetKeys(Empty(), es);
  }

  /** A GET takes the API branch exactly when its URL contains the API
      pattern; every other GET takes the cache-first branch. */
  lemma RoutingByUrl(s: Store, req: Request, net: Network)
    requires Valid(s) && req.verb == "GET"
    ensures Text.Contains(req.url, API_PATTERN) ==> OnFetch(s, req, net) == NetworkFirst(s, req, net)
    ensures !Text.Contains(req.url, API_PATTERN) ==> OnFetch(s, req, net) == CacheFirstFetch(s, req, net)
  {
  }

  /** Network-first with a stale entry V and a live network answering W with
      status 200: W is returned and the API bucket now holds W. */
  lemma FreshApiResponseReplacesStale(s: Store, req: Request, net: Network)
    requires Valid(s) && req.verb == "GET" && Text.Contains(req.url, API_PATTERN)
    requires net(req).Some? && net(req).value.status == 200
    ensures OnFetch(s, req, net).outcome == Respond(net(req).value)
    ensures MatchIn(OnFetch(s, req, net).store, API_CACHE_NAME, req) == Some(net(req).value)
    ensures forall n :: n in s.buckets && n != API_CACHE_NAME ==>
              OnFetch(s, req, net).store.buckets[n] == s.buckets[n]
  {
  }

  /** Network-first with the network down: a stored entry is served as it
      is, whatever its status, and nothing is written. */
  lemma OfflineApiServesStoredEntry(s: Store, req: Request, net: Network)
    requires Valid(s) && req.verb == "GET" && Text.Contains(req.url, API_PATTERN)
    requires net(req).None?
    requires API_CACHE_NAME in s.buckets && req in s.buckets[API_CACHE_NAME]
    ensures OnFetch(s, req, net) == Handled(Respond(s.buckets[API_CACHE_NAME][req]), s)
  {
  }

  /** Network-first with the network down and no stored entry: the synthetic
      JSON answer with status 200, and no bucket gains an entry. */
  lemma OfflineApiMiss(s: Store, req: Request, net: Network)
    requires Valid(s) && req.verb == "GET" && Text.Contains(req.url, API_PATTERN)
    requires net(req).None?
    requires !(API_CACHE_NAME in s.buckets && req in s.buckets[API_CACHE_NAME])
    ensures OnFetch(s, req, net).outcome == Respond(OfflineResponse())
    ensures OnFetch(s, req, net).outcome.resp.status == 200
    ensures forall n :: n in s.buckets ==> OnFetch(s, req, net).store.buckets[n] == s.buckets[n]
    ensures forall n :: n in OnFetch(s, req, net).store.buckets ==>
              n in s.buckets || OnFetch(s, req, net).store.buckets[n] == map[]
  {
  }

  /** Cache-first: when any bucket holds the request, the answer does not
      depend on the network at all. */
  lemma CacheHitIgnoresNetwork(s: Store, req: Request, net1: Network, net2: Network)
    requires Valid(s) && req.verb == "GET" && !Text.Contains(req.url, API_PATTERN)
    requires exists n :: n in s.buckets && req in s.buckets[n]
    ensures OnFetch(s, req, net1) == OnFetch(s, req, net2)
    ensures OnFetch(s, req, net1).store == s
    ensures OnFetch(s, req, net1).outcome.Respond?
  {
  }

  /** Cache-first miss: the network's answer (or its failure) is passed
      through and nothing is written. */
  lemma CacheMissUsesNetwork(s: Store, req: Request, net: Network)
    requires Valid(s) && req.verb == "GET" && !Text.Contains(req.url, API_PATTERN)
    requires forall n :: n in s.buckets ==> req !in s.buckets[n]
    ensures OnFetch(s, req, net).store == s
    ensures net(req).Some? ==> OnFetch(s, req, net).outcome == Respond(net(req).value)
    ensures net(req).None? ==> OnFetch(s, req, net).outcome == Rejected
  {
  }

  /** After a successful install, `/` is served from the static bucket with
      the network down (provided no other bucket shadows it). */
  lemma InstalledRootServedOffline(s: Store, net: Network, offline: Network)
    requires Valid(s)
    requires net(RootRequest()).Some? && AddAccepts(net(RootRequest()).value)
    requires forall n :: n in s.buckets && n != CACHE_NAME ==> RootRequest() !in s.buckets[n]
    requires offline(RootRequest()).None?
    ensures OnFetch(OnInstall(s, net), RootRequest(), offline).outcome == Respond(net(RootRequest()).value)
  {
    var r := OnInstall(s, net);
    var root := RootRequest();
    assert !Text.Contains(root.url, API_PATTERN);
    MatchAllSpec(r, root);
    var k :| FirstHolder(r, root, k) && MatchAll(r, root).value == r.buckets[r.names[k]][root];
    assert r.names[k] == CACHE_NAME;
  }

  /** In a store holding only the current buckets, a request the API bucket
      lacks is found in the static bucket, if there. */
  lemma CurrentStoreLookup(s: Store, req: Request)
    requires Valid(s)
    requires forall n :: n in s.buckets ==> IsCurrent(n)
    requires CACHE_NAME in s.buckets && req in s.buckets[CACHE_NAME]
    requires API_CACHE_NAME in s.buckets ==> req !in s.buckets[API_CACHE_NAME]
    ensures MatchAll(s, req) == Some(s.buckets[CACHE_NAME][req])
  {
    MatchAllSpec(s, req);
    var k :| FirstHolder(s, req, k) && MatchAll(s, req).value == s.buckets[s.names[k]][req];
    assert s.names[k] in s.buckets;
  }

  /** The browser's order of events after an upgrade: install, then
      activate, then fetch. Once activation has purged the previous
      version's buckets, a `/` warmed at install is served with the network
      down, whatever the old buckets held. Only the current API bucket
      could shadow it. */
  lemma InstallActivateServesRoot(s: Store, net: Network, offline: Network)
    requires Valid(s)
    requires net(RootRequest()).Some? && AddAccepts(net(RootRequest()).value)
    requires offline(RootRequest()).None?
    requires API_CACHE_NAME in s.buckets ==> RootRequest() !in s.buckets[API_CACHE_NAME]
    ensures OnFetch(OnActivate(OnInstall(s, net)), RootRequest(), offline).outcome
            == Respond(net(RootRequest()).value)
  {
    var root := RootRequest();
    var resp := net(root).value;
    var s1 := OnInstall(s, net);
    assert s1 == Put(s, CACHE_NAME, root, resp);
    assert s1.buckets[CACHE_NAME][root] == resp;
    assert API_CACHE_NAME in s1.buckets ==> root !in s1.buckets[API_CACHE_NAME];
    var s2 := OnActivate(s1);
    assert s2.buckets[CACHE_NAME] == s1.buckets[CACHE_NAME];
    CurrentStoreLookup(s2, root);
    assert !Text.Contains(root.url, API_PATTERN);
    assert OnFetch(s2, root, offline) == CacheFirstFetch(s2, root, offline);
  }

  /** Why activation matters: before it runs, a previous version's bucket
      created earlier still answers `/`, even though install has just warmed
      a fresh copy. */
  lemma OldShellShadowsBeforeActivate(stale: Response, net: Network, offline: Network)
    requires net(RootRequest()).Some? && AddAccepts(net(RootRequest()).value)
    requires offline(RootRequest()).None?
    ensures OnFetch(OnInstall(Store(["pokepwa-cache-v2"], map["pokepwa-cache-v2" := map[RootRequest() := stale]]), net),
                    RootRequest(), offline).outcome == Respond(stale)
  {
    var s := Store(["pokepwa-cache-v2"], map["pokepwa-cache-v2" := map[RootRequest() := stale]]);
    var root := RootRequest();
    var s1 := OnInstall(s, net);
    assert s1 == Put(s, CACHE_NAME, root, net(root).value);
    assert s1.names[0] == "pokepwa-cache-v2";
    assert s1.buckets["pokepwa-cache-v2"][root] == stale;
    assert FirstMatch(s1.names, s1.buckets, root) == Some(stale);
    assert !Text.Contains(root.url, API_PATTERN);
  }

  /** Install warms `/` only: the other manifest entry is never added. */
  lemma InstallSkipsManifest(s: Store, net: Network)
    requires Valid(s)
    ensures MatchIn(OnInstall(s, net), CACHE_NAME, Request("GET", STATIC_FILES[1]))
            == MatchIn(s, CACHE_NAME, Request("GET", STATIC_FILES[1]))
  {
  }

  /** A failed warm-up adds no entry to any bucket. */
  lemma FailedInstallAddsNothing(s: Store, net: Network)
    requires Valid(s)
    requires !(net(RootRequest()).Some? && AddAccepts(net(RootRequest()).value))
    ensures forall n :: n in s.buckets ==> OnInstall(s, net).buckets[n] == s.buckets[n]
    ensures CACHE_NAME !in s.buckets ==> OnInstall(s, net).buckets[CACHE_NAME] == map[]
  {
  }

  /** Purging a list of current names changes nothing. */
  lemma {:induction false} PurgeCurrentOnly(s: Store, names: seq<string>)
    requires Valid(s)
    requires forall i :: 0 <= i < |names| ==> IsCurrent(names[i])
    ensures PurgeStale(s, names) == s
    decreases |names|
  {
    if |names| > 0 {
      PurgeCurrentOnly(s, names[1..]);
    }
  }

  /** Activating twice is activating once. */
  lemma ActivateIdempotent(s: Store)
    requires Valid(s)
    ensures OnActivate(OnActivate(s)) == OnActivate(s)
  {
    var r := OnActivate(s);
    assert forall i :: 0 <= i < |r.names| ==> IsCurrent(r.names[i]) by {
      forall i | 0 <= i < |r.names| ensures IsCurrent(r.names[i]) {
        assert r.names[i] in r.buckets;
      }
    }
    PurgeCurrentOnly(r, r.names);
  }
}

=== FILE: text.dfy ===
/** String helpers used by both the service worker and the application:
    substring search (`String.prototype.includes`) and ASCII case mapping
    (`toLowerCase` / `toUpperCase` restricted to the ASCII letters). */
module Text {

  /** `sub` occurs in `s` starting at index `i`. */
  ghost predicate OccursAt(s: string, sub: string, i: int)
  {
    0 <= i && i + |sub| <= |s| && s[i..i + |sub|] == sub
  }

  /** `s.includes(sub)`: a left-to-right scan for the first occurrence. */
  function Contains(s: string, sub: string): (r: bool)
    ensures r <==> exists i :: OccursAt(s, sub, i)
    decreases |s|
  {
    if |sub| > |s| then
      assert forall i :: !OccursAt(s, sub, i);
      false
    else if s[..|sub|] == sub then
      assert OccursAt(s, sub, 0);
      true
    else
      var rest := Contains(s[1..], sub);
      assert forall i :: OccursAt(s[1..], sub, i) <==> OccursAt(s, sub, i + 1) by {
        forall i ensures OccursAt(s[1..], sub, i) <==> OccursAt(s, sub, i + 1) {
          if 0 <= i && i + |sub| <= |s| - 1 {
            assert s[1..][i..i + |sub|] == s[i + 1..i + 1 + |sub|];
          }
        }
      }
      assert !OccursAt(s, sub, 0);
      assert rest ==> exists i :: OccursAt(s, sub, i) by {
        if rest {
          var i :| OccursAt(s[1..], sub, i);
          assert OccursAt(s, sub, i + 1);
        }
      }
      assert (exists i :: OccursAt(s, sub, i)) ==> rest by {
        if exists i :: OccursAt(s, sub, i) {
          var i :| OccursAt(s, sub, i);
          assert i != 0;
          assert OccursAt(s[1..], sub, i - 1);
        }
      }
      rest
  }

  /** Every string contains the empty string. */
  lemma ContainsEmpty(s: string)
    ensures Contains(s, "")
  {
  }

  predicate IsUpperAscii(c: char)
  {
    'A' <= c <= 'Z'
  }

  predicate IsLowerAscii(c: char)
  {
    'a' <= c <= 'z'
  }

  /** ASCII lower-casing of one character; every other character is kept. */
  function LowerChar(c: char): (r: char)
    ensures IsUpperAscii(c) ==> IsLowerAscii(r) && r as int - c as int == 32
    ensures !IsUpperAscii(c) ==> r == c
  {
    if IsUpperAscii(c) then (c as int + 32) as char else c
  }

  /** ASCII upper-casing of one character; every other character is kept. */
  function UpperChar(c: char): (r: char)
    ensures IsLowerAscii(c) ==> IsUpperAscii(r) && c as int - r as int == 32
    ensures !IsLowerAscii(c) ==> r == c
  {
    if IsLowerAscii(c) then (c as int - 32) as char else c
  }

  /** `s.toLowerCase()` on the ASCII range. */
  function Lower(s: string): (r: string)
    ensures |r| == |s|
    ensures forall i :: 0 <= i < |s| ==> r[i] == LowerChar(s[i])
  {
    seq(|s|, i requires 0 <= i < |s| => LowerChar(s[i]))
  }
}

=== FILE: wrappers.dfy ===
/** An optional value, shared by the gateway and the display helpers. */
module Wrappers {

  /** Some value, or nothing: a cache miss, a failed fetch, a parse error,
      a page change the guard refuses. */
  datatype Option<+T> = None | Some(value: T)
}
